=== FILE: README.md ===
# aws-backup-exporter: pagination and projection engine

A Dafny model of the core of `aws_backup_exporter/cli.py`. The exporter polls
the AWS Backup list calls (`list_backup_vaults`, `list_backup_jobs`), walks
their `NextToken`-paginated responses to the end, projects every vault and job
record onto a fixed, ordered label tuple, and writes the observed numbers into
three Prometheus gauges:

- `aws_backup_job_percent_done`
- `aws_backup_job_size_bytes`
- `aws_backup_recovery_points`

The model is functional:

- Records and pages are immutable datatypes. Every key the code subscripts is
  an `Option` field.
- A `KeyError` or an upstream error is a value. It is never left as a
  precondition.
- The gauge store is a `map<(string, seq<string>), real>`.
- `paginate` is a recursion over a finite script of upstream replies.

Modules, in dependency order:

| file | module | what it holds |
|---|---|---|
| wrappers.dfy | `Wrappers` | `Option` and `Result` |
| records.dfy | `Records` | job, vault and page records; errors; dictionary subscripts |
| sink.dfy | `MetricSink` | the gauge store, `Set` (upsert), `Apply` (a sequence of writes) and its last-writer reference `LastWrite` |
| steps.dfy | `Steps` | a callback that updates state and may raise; `Fold`, the loop that stops at the first raise |
| paginator.dfy | `Paginator` | `paginate` and its fetch protocol |
| projection.dfy | `Projection` | `JOB_LABELS` and `VAULT_LABELS`; the job and vault projectors |
| observe.dfy | `Observe` | the two `observe` callbacks; the passes over records |
| cycle.dfy | `PollCycle` | `get_backup_vaults`, `get_backup_jobs`, one iteration of `main` |

How the pieces are modelled:

- **Upstream.** The list call is a sequence of replies. Each reply is a page
  or a raised error, and the i-th fetch receives the i-th reply. A fetch past
  the end of the sequence fails with `NoReply`.
- **Runs.** A run records two things: the cursor every fetch was made with,
  and every page handed to the callback. This makes the protocol statable:
  the first fetch has no cursor, each later fetch carries the previous page's
  token, and the callback runs exactly once per page. A run never hands the
  callback more pages than fetches were made, and makes at most one fetch more
  than it handled pages. The fetch protocol (`Protocol`) and the callbacks'
  fold (`Folded`) leave no freedom once the first cursor is given: from a
  given first cursor, the one run satisfying both is the loop's
  (`ProtocolDeterminesWalk`). `Paginate` adds that the first fetch has no
  cursor.
- **Failures.** Python mutates module-level gauges, so a raised exception
  leaves every earlier write in place. A `Step` therefore carries the state
  reached together with the error, if any.

How the code handles failures:

- A record missing a required key (`CompletionDate`, `CreatedBy.BackupRuleId`,
  ...) is not dropped. The subscript raises `KeyError`, which ends the whole
  pass (`PassStopsAtFirstFailure`, `BadJobEndsPass`). The records before it stay written; the
  records after it are not written.
- The same `KeyError` also ends `paginate`: no later page is fetched, and the
  writes from earlier pages stay in the sink (`CallbackRaiseKeepsEarlierPages`).
- A failing vault pass is not isolated from the job pass. The exception
  escapes `get_backup_vaults()`, so `get_backup_jobs()` does not run in that
  cycle (`RunCycle`). Nothing in `main` catches the exception.
- A job without `CompletionDate` is refused. This includes a job that is
  still running.

## Model

| member | source | states |
|---|---|---|
| MetricSink.Set | aws_backup_exporter/cli.py:90-91 | `labels(*labels).set(v)` is an upsert: the series holds `v` afterwards and every other series is unchanged |
| MetricSink.Apply | aws_backup_exporter/cli.py:78-95 | performing writes left to right leaves each series with the value of the last write to it (`LastWrite`, read from the end); series no write targets keep their old value |
| MetricSink.ApplyAppend | aws_backup_exporter/cli.py:78-95 | performing `a + b` is performing `a` and then `b` |
| MetricSink.LastWriteAppend | aws_backup_exporter/cli.py:78-95 | a later write to a series overrides an earlier one |
| Steps.FoldAppend | aws_backup_exporter/cli.py:78-95 | a loop whose body may raise runs over `a + b` as over `a` and then, unless that raised, over `b` from the state it reached |
| Paginator.Walk | aws_backup_exporter/cli.py:35-41 | one fetch per page handed to the callback, plus at most one fetch that got no page and ended the run with the upstream's error (`FetchFailed` or `NoReply`); the first fetch uses the given cursor |
| Paginator.WalkProtocol | aws_backup_exporter/cli.py:35-41 | the loop satisfies `Protocol`: pages reach the callback in fetch order; each later fetch carries the previous page's `NextToken`; a normal end is a page without a token; a fetch that got no page ends the run with the upstream's error |
| Paginator.WalkFolded | aws_backup_exporter/cli.py:35-41 | the loop satisfies `Folded`: its state is the callbacks' fold over the handled pages; no callback but the last one raised; a raising last callback's error ends the run |
| Paginator.Paginate | aws_backup_exporter/cli.py:32-41 | the first fetch has no cursor, and the run satisfies both `Protocol` and `Folded` |
| Paginator.FirstPageWithoutToken | aws_backup_exporter/cli.py:33-39 | the callback runs on the first page before the token check: a token-less first page, even an empty one, gets exactly one callback and one fetch |
| Paginator.WalkCompleteness | aws_backup_exporter/cli.py:35-41 | from any cursor, a chain of N pages whose callbacks do not raise is handled completely in N fetches |
| Paginator.PaginateCompleteness | aws_backup_exporter/cli.py:32-41 | over N pages where only the last lacks `NextToken`, the callback runs exactly N times on those pages in order, whatever the upstream would answer afterwards; fetch i+1 carries page i's token and the run ends without error |
| Paginator.WalkFetchFailure | aws_backup_exporter/cli.py:36-41 | from any cursor, a fetch that fails after N tokened pages ends the run with that error, after exactly N callbacks |
| Paginator.WalkCallbackRaise | aws_backup_exporter/cli.py:36-41 | from any cursor, a callback that raises after N tokened pages ends the run with its error, after N+1 callbacks and N+1 fetches |
| Paginator.CallbackRaiseKeepsEarlierPages | aws_backup_exporter/cli.py:32-41 | a callback that raises fails the whole pagination with its error. The earlier pages were handled one fetch each, and their updates persist with the raising callback's own. The raising page's token is never fetched |
| Paginator.FetchFailureKeepsEarlierPages | aws_backup_exporter/cli.py:33-41 | a failing fetch gets no callback and ends the run with the upstream's error; the earlier pages were handled and their updates persist |
| Paginator.ProtocolTail | aws_backup_exporter/cli.py:35-41 | after a tokened first page, the rest of a run keeps the fetch protocol over the rest of the replies, so the loop restarts at the next fetch |
| Paginator.ProtocolDeterminesWalk | aws_backup_exporter/cli.py:35-41 | any run satisfying the fetch protocol and the callbacks' fold, from a given first cursor, is exactly the loop's run: the two predicates specify `paginate` completely |
| Records.Field | aws_backup_exporter/cli.py:81-91 | a subscript `d[key]` yields the value when the key is present and raises `KeyError(key)` otherwise |
| Projection.ProjectJob | aws_backup_exporter/cli.py:80-95 | the job label tuple holds, in `JOB_LABELS` order, the field each label names (CreationDate, CompletionDate, BackupJobId, State, CreatedBy.BackupRuleId, CreatedBy.BackupPlanId, BackupVaultName); percent done is always observed; the size is observed exactly when `BackupSizeInBytes` is present, as that number; a refusal is a `KeyError` for a key the job lacks |
| Projection.JobKeyErrors | aws_backup_exporter/cli.py:80-91 | a job projects exactly when it has all nine subscripted keys; otherwise the `KeyError` names the first missing key in evaluation order |
| Projection.JobIdentity | aws_backup_exporter/cli.py:80-88 | two jobs get the same label tuple exactly when they agree on every labelled field |
| Projection.StateChangeIsNewSeries | aws_backup_exporter/cli.py:84 | a job that differs only in `State` still projects, onto a different label tuple, so it addresses a different series |
| Projection.ProjectVault | aws_backup_exporter/cli.py:128-134 | the vault label tuple holds, in `VAULT_LABELS` order, CreationDate and BackupVaultName; the observation is `NumberOfRecoveryPoints`; a refusal is a `KeyError` for a key the vault lacks |
| Projection.VaultKeyErrors | aws_backup_exporter/cli.py:128-134 | a vault projects exactly when it has its three keys; otherwise the `KeyError` names the first missing one |
| Projection.VaultIdentity | aws_backup_exporter/cli.py:128-131 | two vaults get the same label tuple exactly when they agree on creation date and name |
| Observe.JobWrites | aws_backup_exporter/cli.py:90-95 | a projecting job yields its writes in call order: percent done first, to the percent-done series of its tuple, then the size (only when present) to the size series of its tuple; a non-projecting job yields the projector's `KeyError` |
| Observe.VaultWrites | aws_backup_exporter/cli.py:133-134 | a projecting vault yields one write, `NumberOfRecoveryPoints` to the recovery-points series of its tuple; otherwise the projector's `KeyError` |
| Observe.JobWritesTargets | aws_backup_exporter/cli.py:90-95 | one job writes its percent-done series, writes its size series only when it has a size, and targets no other series |
| Observe.ObserveJob | aws_backup_exporter/cli.py:80-95 | one job sets its percent-done series, sets its size series only when present (otherwise leaves it exactly as it was, not 0), and changes nothing else; a job that does not project raises and changes nothing |
| Observe.ObserveVault | aws_backup_exporter/cli.py:128-134 | one vault sets its recovery-points series to `NumberOfRecoveryPoints` and changes nothing else; a vault that does not project raises and changes nothing |
| Observe.FoldConfined | aws_backup_exporter/cli.py:78-95 | a loop of callbacks that each change only series of some metrics changes only those series |
| Observe.JobCallbackConfined | aws_backup_exporter/cli.py:90-95 | the job callback changes only the two job metrics |
| Observe.VaultCallbackConfined | aws_backup_exporter/cli.py:133-134 | the vault callback changes only the recovery-points metric |
| Observe.ObserveJobPage | aws_backup_exporter/cli.py:77-78 | a page without `BackupJobs` is an empty list and leaves the sink unchanged; a job page changes only job series |
| Observe.ObserveVaultPage | aws_backup_exporter/cli.py:126-127 | a page without `BackupVaultList` leaves the sink unchanged; a vault page changes only recovery-point series |
| Observe.PassAppliesAllWrites | aws_backup_exporter/cli.py:78-95 | a pass over records completes exactly when every record projects, and then equals performing all their writes in record order |
| Observe.PassStopsAtFirstFailure | aws_backup_exporter/cli.py:78-88 | a record that does not project fails the whole pass with its error; the records before it are written and the records after it are not |
| Observe.BadJobEndsPass | aws_backup_exporter/cli.py:78-88 | of three jobs where the second lacks `CreatedBy.BackupRuleId`, the pass ends with `KeyError('BackupRuleId')`; only the first job's writes are in the sink |
| Observe.AllWritesMiss | aws_backup_exporter/cli.py:78-95 | when no record writes a series, the pass's writes do not touch it |
| Observe.LastRecordWins | aws_backup_exporter/cli.py:78-95 | the last record that writes a series decides its value |
| Observe.JobPassLastWriterWins | aws_backup_exporter/cli.py:78-95 | after a job pass, each label tuple's percent-done (and, when reported, size) series holds the value of the last job with that tuple |
| Observe.VaultPassLastWriterWins | aws_backup_exporter/cli.py:127-134 | after a vault pass, each label tuple's recovery-points series holds the count of the last vault with that tuple |
| Steps.FoldConcat | aws_backup_exporter/cli.py:36 | a loop over groups whose body is itself a loop over each group's elements, both stopping at the first raise, is one loop over all the elements |
| Observe.JobPagesAreOneLoop | aws_backup_exporter/cli.py:77-78 | handing the job pages one by one to the callback, as `paginate` does (lines 35-41), is the per-job loop over all their jobs, in page order; a bad job stops both at the same job |
| Observe.VaultPagesAreOneLoop | aws_backup_exporter/cli.py:126-127 | handing the vault pages one by one to the callback, as `paginate` does (lines 35-41), is the per-vault loop over all their vaults, in page order; a bad vault stops both at the same vault |
| PollCycle.GetBackupVaults | aws_backup_exporter/cli.py:126-136 | the vault pagination follows the fetch protocol. The sink is the vault callbacks' fold over the handled pages, and only recovery-point series change |
| PollCycle.GetBackupJobs | aws_backup_exporter/cli.py:77-97 | the job pagination follows the fetch protocol. The sink is the job callbacks' fold over the handled pages, and only job series change |
| PollCycle.RunCycle | aws_backup_exporter/cli.py:143-144 | the vault pass paginates the vault replies from the old sink. The job pass paginates the job replies from the vault pass's sink, and runs only when the vault pass ended without error. Vault gauges after the cycle are those the vault pass left, even when the job pass fails |
| PollCycle.JobFetchFailureKeepsVaultPass | aws_backup_exporter/cli.py:143-144 | when the first job fetch fails after a clean vault pass, the cycle ends with that error; job series keep their pre-cycle values and vault series hold the vault pass's writes |
| PollCycle.SingleVaultExample | aws_backup_exporter/cli.py:126-144 | one token-less vault page holding vault (T0, v1, 7 recovery points), then an empty job page, leave exactly `aws_backup_recovery_points{creation_date="T0",backup_vault_name="v1"} = 7` |

## Left out

- The boto3 client (line 13) and its list calls `list_backup_jobs` (line 97) and `list_backup_vaults` (line 136) are not modelled. The upstream is a finite script of replies.
  - Also out of scope: how the token is handed to the client (positionally, line 41) and whether the client accepts that.
  - An upstream that keeps issuing tokens forever would make `paginate` loop forever. Here the script ends, and a run past its end fails with `NoReply`.
- Prometheus internals, `start_http_server` and exposition (lines 11, 140) are not modelled: they are an external library and an HTTP server.
  - `labels(*labels)` registers a series at 0 before the value expression of `.set(...)` is evaluated. The model does not reproduce this.
  - So for a job missing `PercentDone`, or a vault missing `NumberOfRecoveryPoints`, the model leaves the sink unchanged. The library would hold a 0-valued series for that tuple.
- Observe.ObserveJob: states "changes nothing" for a job that raises. The library may have registered a 0-valued percent-done series in that case (see above).
- Observe.ObserveVault: states "changes nothing" for a vault that raises. The library may have registered a 0-valued recovery-points series in that case (lines 133-134).
- `float(job['PercentDone'])` (line 91) is not modelled, because it is floating-point parsing.
  - `PercentDone` is an already-parsed `real`.
  - A string that does not parse raises `ValueError`; the model has no such case.
  - Sizes (`float(job['BackupSizeInBytes'])`, line 95) and recovery-point counts are converted exactly (`as real`). Rounding to a double is not modelled.
- How datetimes are turned into label strings is not modelled. Timestamps are opaque strings.
- The `while True` loop and `time.sleep(5)` in `main` (lines 142-146) are not modelled, because they are a blocking timer. One cycle is modelled.
- The commented-out `Summary` example (lines 149-166) is dead code, and `setup.py` is packaging metadata. Neither is modelled.
- Response fields the code never reads (ARNs, status message, expected completion date, ...) are not represented.

=== FILE: cycle.dfy ===
/** One iteration of `main`'s loop: the vault pass, then the job pass. An
    error escaping `get_backup_vaults()` skips the job pass (and, uncaught, ends
    `main`); the sink keeps whatever was written before it. */
module PollCycle {
  import opened Wrappers
  import opened Records
  import opened MetricSink
  import opened Steps
  import opened Paginator
  import opened Observe

  /** The vault run, the job run when it happened, the sink afterwards, and
      the error that ended the cycle, if any. */
  datatype Cycle = Cycle(vaults: Run<Sink>, jobs: Option<Run<Sink>>, sink: Sink, error: Option<Error>)

  /** `get_backup_vaults()`: paginate the vault list with the vault callback. */
  function GetBackupVaults(sink: Sink, replies: seq<Reply>): (r: Run<Sink>)
    ensures Protocol(replies, r)
    ensures r.requests[0] == None
    ensures Folded(ObserveVaultPage, sink, r)
    ensures Confined(sink, r.state, VAULT_METRICS)
  {
    var r := Paginate(replies, ObserveVaultPage, sink);
    FoldConfined(ObserveVaultPage, VAULT_METRICS, sink, r.handled);
    r
  }

  /** `get_backup_jobs()`: paginate the job list with the job callback. */
  function GetBackupJobs(sink: Sink, replies: seq<Reply>): (r: Run<Sink>)
    ensures Protocol(replies, r)
    ensures r.requests[0] == None
    ensures Folded(ObserveJobPage, sink, r)
    ensures Confined(sink, r.state, JOB_METRICS)
  {
    var r := Paginate(replies, ObserveJobPage, sink);
    FoldConfined(ObserveJobPage, JOB_METRICS, sink, r.handled);
    r
  }

  /** One poll cycle. The vault pass changes only recovery-point series; the
      job pass, which runs only when the vault pass ended without error,
      changes only job series, so the vault gauges the cycle leaves are the
      ones the vault pass wrote even when the job pass fails. */
  function RunCycle(sink: Sink, vaultReplies: seq<Reply>, jobReplies: seq<Reply>): (c: Cycle)
    // the vault pass paginates the vault replies from the old sink
    ensures Protocol(vaultReplies, c.vaults) && c.vaults.requests[0] == None
    ensures Folded(ObserveVaultPage, sink, c.vaults)
    // the job pass paginates the job replies from where the vault pass left the sink
    ensures c.jobs.Some? ==> Protocol(jobReplies, c.jobs.value) && c.jobs.value.requests[0] == None
    ensures c.jobs.Some? ==> Folded(ObserveJobPage, c.vaults.state, c.jobs.value)
    ensures c.jobs.None? <==> c.vaults.error.Some?
    ensures c.error.None? <==> c.vaults.error.None? && c.jobs.value.error.None?
    ensures c.jobs.None? ==> c.sink == c.vaults.state && c.error == c.vaults.error
    ensures c.jobs.Some? ==> c.sink == c.jobs.value.state && c.error == c.jobs.value.error
    ensures Confined(sink, c.vaults.state, VAULT_METRICS)
    ensures Confined(c.vaults.state, c.sink, JOB_METRICS)
    ensures forall k: SeriesKey :: k.0 == RECOVERY_POINTS ==> EqualOnKey(c.vaults.state, c.sink, k)
  {
    var vaults := GetBackupVaults(sink, vaultReplies);
    if vaults.error.Some? then Cycle(vaults, None, vaults.state, vaults.error)
    else
      var jobs := GetBackupJobs(vaults.state, jobReplies);
      Cycle(vaults, Some(jobs), jobs.state, jobs.error)
  }

  /** A single vault page, no token, one vault: the cycle leaves exactly one
      series, `aws_backup_recovery_points{creation_date="T0",
      backup_vault_name="v1"} = 7`, when the job list is empty. */
  lemma SingleVaultExample()
    ensures
      var vault := Vault(Some("T0"), Some("v1"), Some(7));
      var vaultPage := Page(None, Some([vault]), None);
      var jobPage := Page(Some([]), None, None);
      var c := RunCycle(map[], [Answered(vaultPage)], [Answered(jobPage)]);
      c.error.None? && c.sink == map[(RECOVERY_POINTS, ["T0", "v1"]) := 7.0]
  {
    var vault := Vault(Some("T0"), Some("v1"), Some(7));
    var vaultPage := Page(None, Some([vault]), None);
    var jobPage := Page(Some([]), None, None);
    var key := (RECOVERY_POINTS, ["T0", "v1"]);
    var observed := ObserveVault(map[], vault);
    assert observed.raised.None? && observed.state == map[key := 7.0] by {
      assert forall k :: k != key ==> EqualOnKey(map[], observed.state, k);
    }
    assert [vault][1..] == [];
    assert Fold(ObserveVault, map[], [vault]) == observed;
    assert ObserveVaultPage(map[], vaultPage) == observed;
    FirstPageWithoutToken([Answered(vaultPage)], ObserveVaultPage, map[]);
    FirstPageWithoutToken([Answered(jobPage)], ObserveJobPage, map[key := 7.0]);
  }

  /** When the job list cannot even be fetched once, the cycle ends with the
      upstream's error after the vault pass: job series keep their values from
      before the cycle and vault series hold what the vault pass wrote. */
  lemma JobFetchFailureKeepsVaultPass(sink: Sink, vaultReplies: seq<Reply>, jobReplies: seq<Reply>)
    requires |jobReplies| == 0 || jobReplies[0].Failed?
    ensures var c := RunCycle(sink, vaultReplies, jobReplies);
      c.vaults.error.None? ==>
        && c.error == Some(FetchError(jobReplies, 0))
        && c.jobs.value.handled == []
        && c.sink == c.vaults.state
        && (forall k: SeriesKey :: k.0 in JOB_METRICS ==> EqualOnKey(sink, c.sink, k))
        && (forall k: SeriesKey :: k.0 in VAULT_METRICS ==> EqualOnKey(c.vaults.state, c.sink, k))
  {
    var c := RunCycle(sink, vaultReplies, jobReplies);
    if c.vaults.error.None? {
      forall k: SeriesKey | k.0 in JOB_METRICS ensures EqualOnKey(sink, c.sink, k) {
        assert k.0 !in VAULT_METRICS;
      }
    }
  }
}

=== FILE: observe.dfy ===
/** The two `observe` callbacks: for every record of a page, project it and
    write its observations into the gauges. A record the projector refuses
    raises, which ends the pass over the page; the writes of the records before
    it stay in the sink. */
module Observe {
  import opened Wrappers
  import opened Records
  import opened MetricSink
  import opened Steps
  import opened Projection

  /** The metrics the job callback writes, and the one the vault callback writes. */
  const JOB_METRICS: set<string> := {JOB_PERCENT_DONE, JOB_SIZE_BYTES}
  const VAULT_METRICS: set<string> := {RECOVERY_POINTS}

  /** The gauge writes of one job, in the order the callback performs them:
      percent done, then the size if the job has one. */
  function JobWrites(job: Job): (r: Result<seq<Write>, Error>)
    ensures r.Err? <==> ProjectJob(job).Err?
    ensures r.Err? ==> r.error == ProjectJob(job).error
    ensures r.Ok? ==> |r.value| == (if job.backupSizeInBytes.Some? then 2 else 1)
    ensures r.Ok? ==> Some(r.value[0].value) == job.percentDone
    ensures r.Ok? ==> forall i :: 0 <= i < |r.value| ==>
      r.value[i].key == ((if i == 0 then JOB_PERCENT_DONE else JOB_SIZE_BYTES), ProjectJob(job).value.labels)
    ensures r.Ok? && job.backupSizeInBytes.Some? ==> r.value[1].value == job.backupSizeInBytes.value as real
  {
    var obs :- ProjectJob(job);
    Ok([Write((JOB_PERCENT_DONE, obs.labels), obs.percentDone)]
       + if obs.sizeBytes.Some? then [Write((JOB_SIZE_BYTES, obs.labels), obs.sizeBytes.value)] else [])
  }

  /** The gauge write of one vault. */
  function VaultWrites(vault: Vault): (r: Result<seq<Write>, Error>)
    ensures r.Err? <==> ProjectVault(vault).Err?
    ensures r.Err? ==> r.error == ProjectVault(vault).error
    ensures r.Ok? ==> |r.value| == 1
    ensures r.Ok? ==> r.value[0].key == (RECOVERY_POINTS, ProjectVault(vault).value.labels)
    ensures r.Ok? ==> vault.numberOfRecoveryPoints.Some? && r.value[0].value == vault.numberOfRecoveryPoints.value as real
  {
    var obs :- ProjectVault(vault);
    Ok([Write((RECOVERY_POINTS, obs.labels), obs.recoveryPoints)])
  }

  /** Which series a job's writes target, and the value each ends with. */
  lemma JobWritesTargets(job: Job)
    ensures ProjectJob(job).Ok? ==>
      var ws := JobWrites(job).value;
      var labels := ProjectJob(job).value.labels;
      && LastWrite(ws, (JOB_PERCENT_DONE, labels)) == job.percentDone
      && (job.backupSizeInBytes.Some? ==> LastWrite(ws, (JOB_SIZE_BYTES, labels)) == Some(job.backupSizeInBytes.value as real))
      && (job.backupSizeInBytes.None? ==> LastWrite(ws, (JOB_SIZE_BYTES, labels)).None?)
      && forall k :: k != (JOB_PERCENT_DONE, labels) && k != (JOB_SIZE_BYTES, labels) ==> LastWrite(ws, k).None?
  {
    if ProjectJob(job).Ok? {
      var ws := JobWrites(job).value;
      var labels := ProjectJob(job).value.labels;
      forall k | k != (JOB_PERCENT_DONE, labels) && k != (JOB_SIZE_BYTES, labels) ensures LastWrite(ws, k).None? {
        LastWriteNone(ws, k);
      }
      if job.backupSizeInBytes.None? {
        LastWriteNone(ws, (JOB_SIZE_BYTES, labels));
      } else {
        assert ws[..1] == [ws[0]];
      }
    }
  }

  /** Handle one record whose writes are `writesOf(x)`: perform them, or raise
      before any of them when the record does not project. */
  function Upsert<X>(writesOf: X -> Result<seq<Write>, Error>, sink: Sink, x: X): Step<Sink> {
    match writesOf(x)
    case Err(e) => Step(sink, Some(e))
    case Ok(ws) => Step(Apply(sink, ws), None)
  }

  /** One iteration of the job callback's loop. A job that projects sets its
      percent-done series, sets its size series only when it reports a size
      (otherwise that series is left exactly as it was, not zeroed), and no
      other series changes; a job that does not project raises its `KeyError`
      and changes nothing. */
  function ObserveJob(sink: Sink, job: Job): (r: Step<Sink>)
    ensures r.raised.None? <==> ProjectJob(job).Ok?
    ensures r.raised.Some? ==> r.state == sink && r.raised == Some(ProjectJob(job).error)
    ensures r.raised.None? ==>
      var labels := ProjectJob(job).value.labels;
      && (JOB_PERCENT_DONE, labels) in r.state
      && Some(r.state[(JOB_PERCENT_DONE, labels)]) == job.percentDone
      && (job.backupSizeInBytes.Some? ==>
            (JOB_SIZE_BYTES, labels) in r.state
            && r.state[(JOB_SIZE_BYTES, labels)] == job.backupSizeInBytes.value as real)
      && (job.backupSizeInBytes.None? ==> EqualOnKey(sink, r.state, (JOB_SIZE_BYTES, labels)))
      && (forall k :: k != (JOB_PERCENT_DONE, labels) && k != (JOB_SIZE_BYTES, labels) ==> EqualOnKey(sink, r.state, k))
  {
    JobWritesTargets(job);
    Upsert(JobWrites, sink, job)
  }

  /** One iteration of the vault callback's loop: a vault that projects sets
      its recovery-points series to its `NumberOfRecoveryPoints` and nothing
      else; one that does not raises and changes nothing. */
  function ObserveVault(sink: Sink, vault: Vault): (r: Step<Sink>)
    ensures r.raised.None? <==> ProjectVault(vault).Ok?
    ensures r.raised.Some? ==> r.state == sink && r.raised == Some(ProjectVault(vault).error)
    ensures r.raised.None? ==>
      var labels := ProjectVault(vault).value.labels;
      && (RECOVERY_POINTS, labels) in r.state
      && r.state[(RECOVERY_POINTS, labels)] == vault.numberOfRecoveryPoints.value as real
      && (forall k :: k != (RECOVERY_POINTS, labels) ==> EqualOnKey(sink, r.state, k))
  {
    Upsert(VaultWrites, sink, vault)
  }

  /** A fold of callbacks that each change only series of `metrics` changes
      only series of `metrics`. */
  lemma {:induction false} FoldConfined<X>(f: (Sink, X) -> Step<Sink>, metrics: set<string>, s: Sink, xs: seq<X>)
    requires forall s', x :: Confined(s', f(s', x).state, metrics)
    ensures Confined(s, Fold(f, s, xs).state, metrics)
    decreases |xs|
  {
    if |xs| > 0 {
      var st := f(s, xs[0]);
      if st.raised.None? {
        FoldConfined(f, metrics, st.state, xs[1..]);
        var r := Fold(f, st.state, xs[1..]).state;
        forall k: SeriesKey | k.0 !in metrics ensures EqualOnKey(s, r, k) {
          assert EqualOnKey(s, st.state, k) && EqualOnKey(st.state, r, k);
        }
      }
    }
  }

  lemma JobCallbackConfined()
    ensures forall s, job :: Confined(s, ObserveJob(s, job).state, JOB_METRICS)
  {
    forall s, job ensures Confined(s, ObserveJob(s, job).state, JOB_METRICS) {
      var r := ObserveJob(s, job);
      forall k: SeriesKey | k.0 !in JOB_METRICS ensures EqualOnKey(s, r.state, k) {
        if r.raised.None? {
          var labels := ProjectJob(job).value.labels;
          assert k != (JOB_PERCENT_DONE, labels) && k != (JOB_SIZE_BYTES, labels);
        }
      }
    }
  }

  lemma VaultCallbackConfined()
    ensures forall s, vault :: Confined(s, ObserveVault(s, vault).state, VAULT_METRICS)
  {
    forall s, vault ensures Confined(s, ObserveVault(s, vault).state, VAULT_METRICS) {
      var r := ObserveVault(s, vault);
      forall k: SeriesKey | k.0 !in VAULT_METRICS ensures EqualOnKey(s, r.state, k) {
        if r.raised.None? {
          assert k != (RECOVERY_POINTS, ProjectVault(vault).value.labels);
        }
      }
    }
  }

  /** The job callback on one page: `response.get('BackupJobs', [])`. A page
      without the key is an empty list and leaves the sink as it was; in any
      case only job series change. */
  function ObserveJobPage(sink: Sink, page: Page): (r: Step<Sink>)
    ensures page.backupJobs.None? ==> r == Step(sink, None)
    ensures Confined(sink, r.state, JOB_METRICS)
  {
    JobCallbackConfined();
    FoldConfined(ObserveJob, JOB_METRICS, sink, page.backupJobs.GetOr([]));
    Fold(ObserveJob, sink, page.backupJobs.GetOr([]))
  }

  /** The vault callback on one page: `response.get('BackupVaultList', [])`. */
  function ObserveVaultPage(sink: Sink, page: Page): (r: Step<Sink>)
    ensures page.backupVaultList.None? ==> r == Step(sink, None)
    ensures Confined(sink, r.state, VAULT_METRICS)
  {
    VaultCallbackConfined();
    FoldConfined(ObserveVault, VAULT_METRICS, sink, page.backupVaultList.GetOr([]));
    Fold(ObserveVault, sink, page.backupVaultList.GetOr([]))
  }

  /** Every record of `xs` projects. */
  predicate AllProject<X>(writesOf: X -> Result<seq<Write>, Error>, xs: seq<X>) {
    forall i :: 0 <= i < |xs| ==> writesOf(xs[i]).Ok?
  }

  /** The writes of all records of `xs`, in order. */
  function AllWrites<X>(writesOf: X -> Result<seq<Write>, Error>, xs: seq<X>): seq<Write>
    requires AllProject(writesOf, xs)
    decreases |xs|
  {
    if |xs| == 0 then [] else writesOf(xs[0]).value + AllWrites(writesOf, xs[1..])
  }

  /** A pass over records is a left-to-right fold of upserts: it completes
      exactly when every record projects, and then the sink is the old sink
      with all the records' writes performed in order. */
  lemma {:induction false} PassAppliesAllWrites<X>(f: (Sink, X) -> Step<Sink>, writesOf: X -> Result<seq<Write>, Error>, sink: Sink, xs: seq<X>)
    requires forall s, x :: f(s, x) == Upsert(writesOf, s, x)
    ensures Fold(f, sink, xs).raised.None? <==> AllProject(writesOf, xs)
    ensures AllProject(writesOf, xs) ==> Fold(f, sink, xs).state == Apply(sink, AllWrites(writesOf, xs))
    decreases |xs|
  {
    if |xs| > 0 {
      var tail := xs[1..];
      assert AllProject(writesOf, xs) <==> writesOf(xs[0]).Ok? && AllProject(writesOf, tail) by {
        assert forall i :: 0 < i < |xs| ==> xs[i] == tail[i - 1];
      }
      assert f(sink, xs[0]) == Upsert(writesOf, sink, xs[0]);
      match writesOf(xs[0])
      case Err(_) =>
      case Ok(ws) =>
        var next := Apply(sink, ws);
        PassAppliesAllWrites(f, writesOf, next, tail);
        if AllProject(writesOf, xs) {
          ApplyAppend(sink, ws, AllWrites(writesOf, tail));
        }
    }
  }

  /** A record that does not project fails the whole pass with its error: the
      records before it have been written, the records after it have not. */
  lemma PassStopsAtFirstFailure<X>(f: (Sink, X) -> Step<Sink>, writesOf: X -> Result<seq<Write>, Error>, sink: Sink, xs: seq<X>, k: nat)
    requires forall s, x :: f(s, x) == Upsert(writesOf, s, x)
    requires k < |xs| && AllProject(writesOf, xs[..k]) && writesOf(xs[k]).Err?
    ensures Fold(f, sink, xs) == Step(Apply(sink, AllWrites(writesOf, xs[..k])), Some(writesOf(xs[k]).error))
  {
    assert xs == xs[..k] + xs[k..];
    FoldAppend(f, sink, xs[..k], xs[k..]);
    PassAppliesAllWrites(f, writesOf, sink, xs[..k]);
    assert xs[k..][0] == xs[k];
    assert f(Fold(f, sink, xs[..k]).state, xs[k]) == Upsert(writesOf, Fold(f, sink, xs[..k]).state, xs[k]);
  }

  /** No record of `xs` writes `k`, so neither do their writes together. */
  lemma {:induction false} AllWritesMiss<X>(writesOf: X -> Result<seq<Write>, Error>, xs: seq<X>, k: SeriesKey)
    requires AllProject(writesOf, xs)
    requires forall j :: 0 <= j < |xs| ==> LastWrite(writesOf(xs[j]).value, k).None?
    ensures LastWrite(AllWrites(writesOf, xs), k).None?
    decreases |xs|
  {
    if |xs| > 0 {
      AllWritesMiss(writesOf, xs[1..], k);
      LastWriteAppend(writesOf(xs[0]).value, AllWrites(writesOf, xs[1..]), k);
    }
  }

  /** The last record that writes a series decides its value. */
  lemma {:induction false} LastRecordWins<X>(writesOf: X -> Result<seq<Write>, Error>, xs: seq<X>, i: nat, k: SeriesKey)
    requires AllProject(writesOf, xs)
    requires i < |xs| && LastWrite(writesOf(xs[i]).value, k).Some?
    requires forall j :: i < j < |xs| ==> LastWrite(writesOf(xs[j]).value, k).None?
    ensures LastWrite(AllWrites(writesOf, xs), k) == LastWrite(writesOf(xs[i]).value, k)
    decreases |xs|
  {
    var tail := xs[1..];
    LastWriteAppend(writesOf(xs[0]).value, AllWrites(writesOf, tail), k);
    if i == 0 {
      AllWritesMiss(writesOf, tail, k);
    } else {
      LastRecordWins(writesOf, tail, i - 1, k);
    }
  }

  /** Last writer wins across a page of jobs: when no later job of the page
      has the same label tuple as job `i`, that tuple's percent-done series
      holds job `i`'s value after the pass, and its size series holds job
      `i`'s size when it reported one. */
  lemma JobPassLastWriterWins(sink: Sink, jobs: seq<Job>, i: nat)
    requires forall j :: 0 <= j < |jobs| ==> ProjectJob(jobs[j]).Ok?
    requires i < |jobs|
    requires forall j :: i < j < |jobs| ==> ProjectJob(jobs[j]).value.labels != ProjectJob(jobs[i]).value.labels
    ensures var r := Fold(ObserveJob, sink, jobs);
      var labels := ProjectJob(jobs[i]).value.labels;
      && r.raised.None?
      && (JOB_PERCENT_DONE, labels) in r.state
      && Some(r.state[(JOB_PERCENT_DONE, labels)]) == jobs[i].percentDone
      && (jobs[i].backupSizeInBytes.Some? ==>
            (JOB_SIZE_BYTES, labels) in r.state
            && r.state[(JOB_SIZE_BYTES, labels)] == jobs[i].backupSizeInBytes.value as real)
  {
    var labels := ProjectJob(jobs[i]).value.labels;
    assert AllProject(JobWrites, jobs);
    PassAppliesAllWrites(ObserveJob, JobWrites, sink, jobs);
    var all := AllWrites(JobWrites, jobs);
    var keys := [(JOB_PERCENT_DONE, labels)] + if jobs[i].backupSizeInBytes.Some? then [(JOB_SIZE_BYTES, labels)] else [];
    JobWritesTargets(jobs[i]);
    forall k | k in keys ensures LastWrite(all, k) == LastWrite(JobWrites(jobs[i]).value, k) {
      forall j | i < j < |jobs| ensures LastWrite(JobWrites(jobs[j]).value, k).None? {
        JobWritesTargets(jobs[j]);
      }
      LastRecordWins(JobWrites, jobs, i, k);
    }
  }

  /** Last writer wins across a page of vaults. */
  lemma VaultPassLastWriterWins(sink: Sink, vaults: seq<Vault>, i: nat)
    requires forall j :: 0 <= j < |vaults| ==> ProjectVault(vaults[j]).Ok?
    requires i < |vaults|
    requires forall j :: i < j < |vaults| ==> ProjectVault(vaults[j]).value.labels != ProjectVault(vaults[i]).value.labels
    ensures var r := Fold(ObserveVault, sink, vaults);
      var labels := ProjectVault(vaults[i]).value.labels;
      && r.raised.None?
      && (RECOVERY_POINTS, labels) in r.state
      && r.state[(RECOVERY_POINTS, labels)] == vaults[i].numberOfRecoveryPoints.value as real
  {
    var k := (RECOVERY_POINTS, ProjectVault(vaults[i]).value.labels);
    assert AllProject(VaultWrites, vaults);
    PassAppliesAllWrites(ObserveVault, VaultWrites, sink, vaults);
    forall j | i < j < |vaults| ensures LastWrite(VaultWrites(vaults[j]).value, k).None? {
      LastWriteNone(VaultWrites(vaults[j]).value, k);
    }
    LastRecordWins(VaultWrites, vaults, i, k);
  }

  /** Three jobs, the second lacking `CreatedBy.BackupRuleId`: the pass does
      not skip the bad job, it ends with its `KeyError`. The first job is
      written and the third is not. */
  lemma BadJobEndsPass(sink: Sink, a: Job, b: Job, c: Job)
    requires ProjectJob(a).Ok? && ProjectJob(c).Ok?
    requires b.creationDate.Some? && b.completionDate.Some? && b.backupJobId.Some? && b.state.Some?
    requires b.createdBy.Some? && b.createdBy.value.backupRuleId.None?
    ensures Fold(ObserveJob, sink, [a, b, c]) == Step(ObserveJob(sink, a).state, Some(MissingKey("BackupRuleId")))
  {
    var jobs := [a, b, c];
    assert jobs[..1] == [a] && jobs[1] == b;
    assert AllWrites(JobWrites, [a]) == JobWrites(a).value by {
      assert [a][1..] == [];
    }
    PassStopsAtFirstFailure(ObserveJob, JobWrites, sink, jobs, 1);
  }

  /** Every job on the pages of a jobs pass, in the order the pages arrived. */
  function JobsOf(pages: seq<Page>): seq<Job> {
    Concat((p: Page) => p.backupJobs.GetOr([]), pages)
  }

  /** Every vault on the pages of a vaults pass, in the order the pages arrived. */
  function VaultsOf(pages: seq<Page>): seq<Vault> {
    Concat((p: Page) => p.backupVaultList.GetOr([]), pages)
  }

  /** Page boundaries do not matter to a jobs pass: handing the pages one by
      one to the page callback is the per-job loop over all their jobs, and a
      bad job stops it at the same place. */
  lemma JobPagesAreOneLoop(sink: Sink, pages: seq<Page>)
    ensures Fold(ObserveJobPage, sink, pages) == Fold(ObserveJob, sink, JobsOf(pages))
  {
    FoldConcat(ObserveJobPage, ObserveJob, (p: Page) => p.backupJobs.GetOr([]), sink, pages);
  }

  /** The vault counterpart of `JobPagesAreOneLoop`. */
  lemma VaultPagesAreOneLoop(sink: Sink, pages: seq<Page>)
    ensures Fold(ObserveVaultPage, sink, pages) == Fold(ObserveVault, sink, VaultsOf(pages))
  {
    FoldConcat(ObserveVaultPage, ObserveVault, (p: Page) => p.backupVaultList.GetOr([]), sink, pages);
  }
}

=== FILE: paginator.dfy ===
/** `paginate(data_function, process_function)`: fetch the first page without
    a cursor, hand every page to the callback, and fetch again with the page's
    `NextToken` until a page carries none.

    The upstream list call is a script of replies: the i-th fetch receives the
    i-th reply, whatever cursor it was called with. The run records the cursors
    the fetches were made with and the pages the callback was given, so that
    the fetch protocol can be stated. */
module Paginator {
  import opened Wrappers
  import opened Records
  import opened Steps

  /** The upstream's answer to one fetch: a page, or a raised error. */
  datatype Reply = Answered(page: Page) | Failed(reason: string)

  /** The outcome of one `paginate` call: the state the callbacks left behind,
      the cursor of every fetch in order, every page handed to the callback in
      order, and the error that ended the call, if any. */
  datatype Run<S> = Run(state: S, requests: seq<Option<Token>>, handled: seq<Page>, error: Option<Error>)

  /** The error of fetch number `i`, which was not answered with a page. */
  function FetchError(replies: seq<Reply>, i: nat): Error {
    if i < |replies| && replies[i].Failed? then FetchFailed(replies[i].reason) else NoReply
  }

  /** The loop of `paginate` from a fetch made with `cursor`: one fetch per
      page handed to the callback, plus possibly one that got no page and
      ended the run with the upstream's error. */
  function Walk<S>(replies: seq<Reply>, cursor: Option<Token>, process: (S, Page) -> Step<S>, s: S): (r: Run<S>)
    ensures 1 <= |r.requests| <= |replies| + 1
    ensures r.requests[0] == cursor
    ensures |r.handled| == |r.requests| || |r.handled| + 1 == |r.requests|
    ensures |r.handled| <= |replies|
    ensures |r.handled| < |r.requests| ==> r.error == Some(FetchError(replies, |r.handled|))
    decreases |replies|
  {
    if |replies| == 0 then Run(s, [cursor], [], Some(NoReply))
    else match replies[0]
      case Failed(reason) => Run(s, [cursor], [], Some(FetchFailed(reason)))
      case Answered(page) =>
        var st := process(s, page);
        if st.raised.Some? then Run(st.state, [cursor], [page], st.raised)
        else if page.nextToken.None? then Run(st.state, [cursor], [page], None)
        else
          var rest := Walk(replies[1..], page.nextToken, process, st.state);
          Run(rest.state, [cursor] + rest.requests, [page] + rest.handled, rest.error)
  }

  /** The fetch protocol of a run: the callback sees the answered pages in
      fetch order, every fetch after the first carries the previous page's
      token, a run ends normally only on a page without a token, and a run
      whose last fetch got no page ends with the upstream's error. */
  ghost predicate Protocol<S>(replies: seq<Reply>, r: Run<S>) {
    && |r.requests| >= 1
    && |r.handled| <= |r.requests| <= |r.handled| + 1
    && |r.handled| <= |replies|
    && (forall i :: 0 <= i < |r.handled| ==> replies[i] == Answered(r.handled[i]))
    && (forall i :: 0 <= i < |r.requests| - 1 ==> r.handled[i].nextToken.Some? && r.requests[i + 1] == r.handled[i].nextToken)
    && (r.error.None? ==> |r.handled| == |r.requests| && r.handled[|r.handled| - 1].nextToken.None?)
    && (|r.handled| < |r.requests| ==> |r.handled| == |replies| || replies[|r.handled|].Failed?)
    && (|r.handled| < |r.requests| ==> r.error == Some(FetchError(replies, |r.handled|)))
  }

  lemma {:induction false} WalkProtocol<S>(replies: seq<Reply>, cursor: Option<Token>, process: (S, Page) -> Step<S>, s: S)
    ensures Protocol(replies, Walk(replies, cursor, process, s))
    decreases |replies|
  {
    if |replies| > 0 && replies[0].Answered? {
      var page := replies[0].page;
      var st := process(s, page);
      if st.raised.None? && page.nextToken.Some? {
        var rest := Walk(replies[1..], page.nextToken, process, st.state);
        WalkProtocol(replies[1..], page.nextToken, process, st.state);
        var r := Walk(replies, cursor, process, s);
        assert r.handled == [page] + rest.handled;
        assert r.requests == [cursor] + rest.requests;
        forall i | 0 <= i < |r.handled| ensures replies[i] == Answered(r.handled[i]) {
          if i > 0 {
            assert replies[1..][i - 1] == Answered(rest.handled[i - 1]);
          }
        }
      }
    }
  }

  /** The state of a run is the callbacks' fold over the pages handed to them;
      no callback but the last one raised; the run's error is the fold's when
      the last callback raised, and the fold raised nowhere otherwise. */
  ghost predicate Folded<S>(process: (S, Page) -> Step<S>, s: S, r: Run<S>) {
    && r.state == Fold(process, s, r.handled).state
    && (|r.handled| > 0 ==> Fold(process, s, r.handled[..|r.handled| - 1]).raised.None?)
    && (r.error.None? || |r.handled| < |r.requests| ==> Fold(process, s, r.handled).raised.None?)
    && (r.error.Some? && |r.handled| == |r.requests| ==> r.error == Fold(process, s, r.handled).raised)
  }

  lemma {:induction false} WalkFolded<S>(replies: seq<Reply>, cursor: Option<Token>, process: (S, Page) -> Step<S>, s: S)
    ensures Folded(process, s, Walk(replies, cursor, process, s))
    decreases |replies|
  {
    if |replies| > 0 && replies[0].Answered? {
      var page := replies[0].page;
      var st := process(s, page);
      if st.raised.None? && page.nextToken.Some? {
        var rest := Walk(replies[1..], page.nextToken, process, st.state);
        WalkFolded(replies[1..], page.nextToken, process, st.state);
        var handled := [page] + rest.handled;
        assert handled[0] == page;
        assert handled[1..] == rest.handled;
        var init := handled[..|handled| - 1];
        if |rest.handled| > 0 {
          assert init[0] == page;
          assert init[1..] == rest.handled[..|rest.handled| - 1];
        } else {
          assert init == [];
        }
      } else {
        assert [page][..0] == [];
      }

    }
  }

  /** `paginate`: the first fetch is made without a cursor. */
  function Paginate<S>(replies: seq<Reply>, process: (S, Page) -> Step<S>, s: S): (r: Run<S>)
    ensures Protocol(replies, r)
    ensures r.requests[0] == None
    ensures Folded(process, s, r)
  {
    WalkProtocol(replies, None, process, s);
    WalkFolded(replies, None, process, s);
    Walk(replies, None, process, s)
  }

  /** The replies of an upstream that answers every fetch with the next of `pages`. */
  function Answers(pages: seq<Page>): (rs: seq<Reply>)
    ensures |rs| == |pages|
    ensures forall i :: 0 <= i < |pages| ==> rs[i] == Answered(pages[i])
  {
    seq(|pages|, i requires 0 <= i < |pages| => Answered(pages[i]))
  }

  /** A cursor chain: every page but the last carries a token, the last none. */
  predicate Chain(pages: seq<Page>) {
    && |pages| > 0
    && (forall i :: 0 <= i < |pages| - 1 ==> pages[i].nextToken.Some?)
    && pages[|pages| - 1].nextToken.None?
  }

  /** The callback runs on the first page before the token is looked at: a
      first page without a token, even one with no records, is handed to the
      callback exactly once and nothing more is fetched. */
  lemma FirstPageWithoutToken<S>(replies: seq<Reply>, process: (S, Page) -> Step<S>, s: S)
    requires |replies| > 0 && replies[0].Answered? && replies[0].page.nextToken.None?
    ensures Paginate(replies, process, s).handled == [replies[0].page]
    ensures Paginate(replies, process, s).requests == [None]
    ensures Paginate(replies, process, s).state == process(s, replies[0].page).state
    ensures Paginate(replies, process, s).error == process(s, replies[0].page).raised
  {
  }

  /** Completeness, from any cursor: see `PaginateCompleteness`. */
  lemma {:induction false} WalkCompleteness<S>(pages: seq<Page>, later: seq<Reply>, cursor: Option<Token>, process: (S, Page) -> Step<S>, s: S)
    requires Chain(pages)
    requires Fold(process, s, pages).raised.None?
    ensures var r := Walk(Answers(pages) + later, cursor, process, s);
      && r.handled == pages
      && |r.requests| == |pages|
      && r.requests[0] == cursor
      && (forall i :: 0 < i < |pages| ==> r.requests[i] == pages[i - 1].nextToken)
      && r.error.None?
      && r.state == Fold(process, s, pages).state
    decreases |pages|
  {
    var replies := Answers(pages) + later;
    var page := pages[0];
    assert replies[0] == Answered(page);
    var st := process(s, page);
    if |pages| > 1 {
      var tail := pages[1..];
      assert replies[1..] == Answers(tail) + later;
      assert Chain(tail);
      WalkCompleteness(tail, later, page.nextToken, process, st.state);
      var rest := Walk(replies[1..], page.nextToken, process, st.state);
      var r := Walk(replies, cursor, process, s);
      assert r.requests == [cursor] + rest.requests;
      forall i | 0 < i < |pages| ensures r.requests[i] == pages[i - 1].nextToken {
        if i > 1 {
          assert r.requests[i] == rest.requests[i - 1];
        }
      }
    }
  }

  /** Completeness: over a chain of N pages (whatever the upstream would answer
      afterwards), a run whose callbacks do not raise hands exactly the N pages
      to the callback, in order, makes exactly N fetches, the first without a
      cursor and each later one with the previous page's token, and ends
      without error. */
  lemma PaginateCompleteness<S>(pages: seq<Page>, later: seq<Reply>, process: (S, Page) -> Step<S>, s: S)
    requires Chain(pages)
    requires Fold(process, s, pages).raised.None?
    ensures var r := Paginate(Answers(pages) + later, process, s);
      && r.handled == pages
      && |r.requests| == |pages|
      && r.requests[0] == None
      && (forall i :: 0 < i < |pages| ==> r.requests[i] == pages[i - 1].nextToken)
      && r.error.None?
      && r.state == Fold(process, s, pages).state
  {
    WalkCompleteness(pages, later, None, process, s);
  }

  /** A failing fetch, from any cursor: see `FetchFailureKeepsEarlierPages`. */
  lemma {:induction false} WalkFetchFailure<S>(pages: seq<Page>, reason: string, later: seq<Reply>, cursor: Option<Token>, process: (S, Page) -> Step<S>, s: S)
    requires forall i :: 0 <= i < |pages| ==> pages[i].nextToken.Some?
    requires Fold(process, s, pages).raised.None?
    ensures var r := Walk(Answers(pages) + [Failed(reason)] + later, cursor, process, s);
      && r.handled == pages
      && |r.requests| == |pages| + 1
      && r.error == Some(FetchFailed(reason))
      && r.state == Fold(process, s, pages).state
    decreases |pages|
  {
    var replies := Answers(pages) + [Failed(reason)] + later;
    if |pages| > 0 {
      var page := pages[0];
      assert replies[0] == Answered(page);
      var st := process(s, page);
      var tail := pages[1..];
      assert replies[1..] == Answers(tail) + [Failed(reason)] + later;
      WalkFetchFailure(tail, reason, later, page.nextToken, process, st.state);
    } else {
      assert replies[0] == Failed(reason);
    }
  }

  /** A failing fetch ends the run without a callback for it; the pages before
      it were handed to the callback, one fetch each, and their updates are
      kept. */
  lemma FetchFailureKeepsEarlierPages<S>(pages: seq<Page>, reason: string, later: seq<Reply>, process: (S, Page) -> Step<S>, s: S)
    requires forall i :: 0 <= i < |pages| ==> pages[i].nextToken.Some?
    requires Fold(process, s, pages).raised.None?
    ensures var r := Paginate(Answers(pages) + [Failed(reason)] + later, process, s);
      && r.handled == pages
      && |r.requests| == |pages| + 1
      && r.error == Some(FetchFailed(reason))
      && r.state == Fold(process, s, pages).state
  {
    WalkFetchFailure(pages, reason, later, None, process, s);
  }

  /** A raising callback, from any cursor: see `CallbackRaiseKeepsEarlierPages`. */
  lemma {:induction false} WalkCallbackRaise<S>(pages: seq<Page>, bad: Page, later: seq<Reply>, cursor: Option<Token>, process: (S, Page) -> Step<S>, s: S)
    requires forall i :: 0 <= i < |pages| ==> pages[i].nextToken.Some?
    requires Fold(process, s, pages).raised.None?
    requires process(Fold(process, s, pages).state, bad).raised.Some?
    ensures var r := Walk(Answers(pages) + [Answered(bad)] + later, cursor, process, s);
      var last := process(Fold(process, s, pages).state, bad);
      && r.handled == pages + [bad]
      && |r.requests| == |pages| + 1
      && r.error == last.raised
      && r.state == last.state
    decreases |pages|
  {
    var replies := Answers(pages) + [Answered(bad)] + later;
    if |pages| > 0 {
      var page := pages[0];
      assert replies[0] == Answered(page);
      var st := process(s, page);
      var tail := pages[1..];
      assert replies[1..] == Answers(tail) + [Answered(bad)] + later;
      WalkCallbackRaise(tail, bad, later, page.nextToken, process, st.state);
      assert pages + [bad] == [page] + (tail + [bad]);
    } else {
      assert replies[0] == Answered(bad);
      assert pages + [bad] == [bad];
    }
  }

  /** A raising callback fails the whole pagination: the pages before it were
      handled, one fetch each, and their updates persist together with the
      raising callback's own; the token of the raising page is never fetched. */
  lemma CallbackRaiseKeepsEarlierPages<S>(pages: seq<Page>, bad: Page, later: seq<Reply>, process: (S, Page) -> Step<S>, s: S)
    requires forall i :: 0 <= i < |pages| ==> pages[i].nextToken.Some?
    requires Fold(process, s, pages).raised.None?
    requires process(Fold(process, s, pages).state, bad).raised.Some?
    ensures var r := Paginate(Answers(pages) + [Answered(bad)] + later, process, s);
      var last := process(Fold(process, s, pages).state, bad);
      && r.handled == pages + [bad]
      && |r.requests| == |pages| + 1
      && r.error == last.raised
      && r.state == last.state
  {
    WalkCallbackRaise(pages, bad, later, None, process, s);
  }

  /** After a page with a token, the rest of a run keeps the protocol over
      the rest of the replies. */
  lemma ProtocolTail<S>(replies: seq<Reply>, r: Run<S>)
    requires Protocol(replies, r) && |r.requests| > 1
    ensures |r.handled| > 0
    ensures Protocol(replies[1..], Run(r.state, r.requests[1..], r.handled[1..], r.error))
  {
    var rest := Run(r.state, r.requests[1..], r.handled[1..], r.error);
    forall i | 0 <= i < |rest.handled| ensures replies[1..][i] == Answered(rest.handled[i]) {
      assert replies[i + 1] == Answered(r.handled[i + 1]);
    }
    forall i | 0 <= i < |rest.requests| - 1
      ensures rest.handled[i].nextToken.Some? && rest.requests[i + 1] == rest.handled[i].nextToken
    {
      assert rest.requests[i + 1] == r.requests[i + 2];
      assert rest.handled[i] == r.handled[i + 1];
    }
    assert FetchError(replies[1..], |rest.handled|) == FetchError(replies, |r.handled|);
  }

  /** `Protocol` and `Folded` leave no freedom: the one run that satisfies
      both, from a given first cursor, is the loop's. */
  lemma {:induction false} ProtocolDeterminesWalk<S>(replies: seq<Reply>, cursor: Option<Token>, process: (S, Page) -> Step<S>, s: S, r: Run<S>)
    requires Protocol(replies, r) && Folded(process, s, r) && r.requests[0] == cursor
    ensures r == Walk(replies, cursor, process, s)
    decreases |replies|
  {
    // a second fetch needs a page before it
    assert |r.requests| > 1 ==> r.requests[1] == r.handled[0].nextToken;
    if |replies| > 0 && replies[0].Answered? {
      var page := replies[0].page;
      var st := process(s, page);
      assert |r.handled| >= 1;
      assert replies[0] == Answered(r.handled[0]);
      assert r.handled[..1] == [page];
      assert Fold(process, s, [page]) == st;
      assert |r.handled| == 1 ==> r.handled == [page];
      if st.raised.Some? {
        // no page after a raising one
        FoldRaisesFirst(process, s, r.handled);
      } else if page.nextToken.Some? {
        assert |r.requests| > 1;
        var rest := Run(r.state, r.requests[1..], r.handled[1..], r.error);
        assert r.requests == [cursor] + rest.requests;
        assert r.handled == [page] + rest.handled;
        assert Fold(process, s, r.handled) == Fold(process, st.state, rest.handled);
        ProtocolTail(replies, r);
        assert Folded(process, st.state, rest) by {
          if |rest.handled| > 0 {
            assert r.handled[..|r.handled| - 1] == [page] + rest.handled[..|rest.handled| - 1];
          }
        }
        ProtocolDeterminesWalk(replies[1..], page.nextToken, process, st.state, rest);
      }
    }
  }
}

=== FILE: projection.dfy ===
/** The record projectors: each record becomes an ordered label tuple plus
    the values observed for it. A label tuple is positional: its i-th element
    is the value of the label named `JOB_LABELS[i]` (or `VAULT_LABELS[i]`). */
module Projection {
  import opened Wrappers
  import opened Records

  const COMMON_LABELS: seq<string> := ["creation_date"]

  const JOB_LABELS: seq<string> := COMMON_LABELS + [
    "completion_date",
    "backup_job_id",
    "backup_job_state",
    "backup_rule_id",
    "backup_plan_id",
    "backup_vault_name"
  ]

  const VAULT_LABELS: seq<string> := COMMON_LABELS + ["backup_vault_name"]

  /** The response keys a job's projection subscripts, in evaluation order. */
  const JOB_KEYS: seq<string> := [
    "CreationDate", "CompletionDate", "BackupJobId", "State", "CreatedBy",
    "BackupRuleId", "BackupPlanId", "BackupVaultName", "PercentDone"
  ]

  /** The response keys a vault's projection subscripts, in evaluation order. */
  const VAULT_KEYS: seq<string> := ["CreationDate", "BackupVaultName", "NumberOfRecoveryPoints"]

  /** What one job contributes: its label tuple, its percent done, and its size
      when the job reported one. */
  datatype JobObservation = JobObservation(labels: seq<string>, percentDone: real, sizeBytes: Option<real>)

  /** What one vault contributes: its label tuple and its recovery-point count. */
  datatype VaultObservation = VaultObservation(labels: seq<string>, recoveryPoints: real)

  /** The record field behind each job label name. */
  function JobLabelSource(job: Job, name: string): Option<string> {
    if name == "creation_date" then job.creationDate
    else if name == "completion_date" then job.completionDate
    else if name == "backup_job_id" then job.backupJobId
    else if name == "backup_job_state" then job.state
    else if name == "backup_rule_id" then
      (if job.createdBy.Some? then job.createdBy.value.backupRuleId else None)
    else if name == "backup_plan_id" then
      (if job.createdBy.Some? then job.createdBy.value.backupPlanId else None)
    else if name == "backup_vault_name" then job.backupVaultName
    else None
  }

  /** The record field behind each vault label name. */
  function VaultLabelSource(vault: Vault, name: string): Option<string> {
    if name == "creation_date" then vault.creationDate
    else if name == "backup_vault_name" then vault.backupVaultName
    else None
  }

  /** Whether a subscript of `key`, in the projection's evaluation order, finds
      a value on `job` (`BackupRuleId` and `BackupPlanId` live under `CreatedBy`). */
  predicate JobHasKey(job: Job, key: string) {
    if key == "CreationDate" then job.creationDate.Some?
    else if key == "CompletionDate" then job.completionDate.Some?
    else if key == "BackupJobId" then job.backupJobId.Some?
    else if key == "State" then job.state.Some?
    else if key == "CreatedBy" then job.createdBy.Some?
    else if key == "BackupRuleId" then job.createdBy.Some? && job.createdBy.value.backupRuleId.Some?
    else if key == "BackupPlanId" then job.createdBy.Some? && job.createdBy.value.backupPlanId.Some?
    else if key == "BackupVaultName" then job.backupVaultName.Some?
    else if key == "PercentDone" then job.percentDone.Some?
    else false
  }

  predicate VaultHasKey(vault: Vault, key: string) {
    if key == "CreationDate" then vault.creationDate.Some?
    else if key == "BackupVaultName" then vault.backupVaultName.Some?
    else if key == "NumberOfRecoveryPoints" then vault.numberOfRecoveryPoints.Some?
    else false
  }

  /** `JOB_KEYS[i]` is the first key, in evaluation order, that `job` lacks. */
  predicate JobFirstMissing(job: Job, i: int) {
    && 0 <= i < |JOB_KEYS|
    && !JobHasKey(job, JOB_KEYS[i])
    && forall j :: 0 <= j < i ==> JobHasKey(job, JOB_KEYS[j])
  }

  /** `VAULT_KEYS[i]` is the first key, in evaluation order, that `vault` lacks. */
  predicate VaultFirstMissing(vault: Vault, i: int) {
    && 0 <= i < |VAULT_KEYS|
    && !VaultHasKey(vault, VAULT_KEYS[i])
    && forall j :: 0 <= j < i ==> VaultHasKey(vault, VAULT_KEYS[j])
  }

  /** The job projector. The label tuple holds, in `JOB_LABELS` order, the
      field each label names; percent done is always observed, the size only
      when the job carries `BackupSizeInBytes` (an absent size is not a size of
      0). A job lacking a required key is refused with the `KeyError` of the
      first such key. */
  function ProjectJob(job: Job): (r: Result<JobObservation, Error>)
    ensures r.Ok? ==> |r.value.labels| == |JOB_LABELS|
    ensures r.Ok? ==> forall i :: 0 <= i < |JOB_LABELS| ==> JobLabelSource(job, JOB_LABELS[i]) == Some(r.value.labels[i])
    ensures r.Ok? ==> Some(r.value.percentDone) == job.percentDone
    ensures r.Ok? ==> (r.value.sizeBytes.Some? <==> job.backupSizeInBytes.Some?)
    ensures r.Ok? && r.value.sizeBytes.Some? ==> r.value.sizeBytes.value == job.backupSizeInBytes.value as real
    ensures r.Err? ==> r.error.MissingKey? && r.error.key in JOB_KEYS && !JobHasKey(job, r.error.key)
  {
    var creationDate :- Field(job.creationDate, "CreationDate");
    var completionDate :- Field(job.completionDate, "CompletionDate");
    var jobId :- Field(job.backupJobId, "BackupJobId");
    var state :- Field(job.state, "State");
    var createdBy :- Field(job.createdBy, "CreatedBy");
    var ruleId :- Field(createdBy.backupRuleId, "BackupRuleId");
    var planId :- Field(createdBy.backupPlanId, "BackupPlanId");
    var vaultName :- Field(job.backupVaultName, "BackupVaultName");
    var percentDone :- Field(job.percentDone, "PercentDone");
    var labels := [creationDate, completionDate, jobId, state, ruleId, planId, vaultName];
    var size := if job.backupSizeInBytes.Some? then Some(job.backupSizeInBytes.value as real) else None;
    Ok(JobObservation(labels, percentDone, size))
  }

  /** The vault projector: the label tuple holds, in `VAULT_LABELS` order, the
      field each label names, and the observation is the recovery-point count.
      A vault lacking a key is refused with the `KeyError` of the first one. */
  function ProjectVault(vault: Vault): (r: Result<VaultObservation, Error>)
    ensures r.Ok? ==> |r.value.labels| == |VAULT_LABELS|
    ensures r.Ok? ==> forall i :: 0 <= i < |VAULT_LABELS| ==> VaultLabelSource(vault, VAULT_LABELS[i]) == Some(r.value.labels[i])
    ensures r.Ok? ==> vault.numberOfRecoveryPoints.Some? && r.value.recoveryPoints == vault.numberOfRecoveryPoints.value as real
    ensures r.Err? ==> r.error.MissingKey? && r.error.key in VAULT_KEYS && !VaultHasKey(vault, r.error.key)
  {
    var creationDate :- Field(vault.creationDate, "CreationDate");
    var vaultName :- Field(vault.backupVaultName, "BackupVaultName");
    var points :- Field(vault.numberOfRecoveryPoints, "NumberOfRecoveryPoints");
    Ok(VaultObservation([creationDate, vaultName], points as real))
  }

  /** A job projects exactly when it has every key the projection subscripts;
      otherwise the error names the first missing key in evaluation order. */
  lemma JobKeyErrors(job: Job)
    ensures ProjectJob(job).Ok? <==> forall i :: 0 <= i < |JOB_KEYS| ==> JobHasKey(job, JOB_KEYS[i])
    ensures ProjectJob(job).Err? ==> exists i :: JobFirstMissing(job, i) && ProjectJob(job).error == MissingKey(JOB_KEYS[i])
  {
    var i :=
      if job.creationDate.None? then 0
      else if job.completionDate.None? then 1
      else if job.backupJobId.None? then 2
      else if job.state.None? then 3
      else if job.createdBy.None? then 4
      else if job.createdBy.value.backupRuleId.None? then 5
      else if job.createdBy.value.backupPlanId.None? then 6
      else if job.backupVaultName.None? then 7
      else if job.percentDone.None? then 8
      else 9;
    if i < 9 {
      assert JobFirstMissing(job, i);
    } else {
      assert forall i :: 0 <= i < |JOB_KEYS| ==> JobHasKey(job, JOB_KEYS[i]);
    }
  }

  /** A vault projects exactly when it has every key the projection
      subscripts; otherwise the error names the first missing key. */
  lemma VaultKeyErrors(vault: Vault)
    ensures ProjectVault(vault).Ok? <==> forall i :: 0 <= i < |VAULT_KEYS| ==> VaultHasKey(vault, VAULT_KEYS[i])
    ensures ProjectVault(vault).Err? ==> exists i :: VaultFirstMissing(vault, i) && ProjectVault(vault).error == MissingKey(VAULT_KEYS[i])
  {
    var i :=
      if vault.creationDate.None? then 0
      else if vault.backupVaultName.None? then 1
      else if vault.numberOfRecoveryPoints.None? then 2
      else 3;
    if i < 3 {
      assert VaultFirstMissing(vault, i);
    } else {
      assert forall i :: 0 <= i < |VAULT_KEYS| ==> VaultHasKey(vault, VAULT_KEYS[i]);
    }
  }

  /** Two projected jobs address the same series exactly when they agree on
      every labelled field. */
  lemma JobIdentity(a: Job, b: Job)
    requires ProjectJob(a).Ok? && ProjectJob(b).Ok?
    ensures ProjectJob(a).value.labels == ProjectJob(b).value.labels <==>
      forall i :: 0 <= i < |JOB_LABELS| ==> JobLabelSource(a, JOB_LABELS[i]) == JobLabelSource(b, JOB_LABELS[i])
  {
    var la, lb := ProjectJob(a).value.labels, ProjectJob(b).value.labels;
    if forall i :: 0 <= i < |JOB_LABELS| ==> JobLabelSource(a, JOB_LABELS[i]) == JobLabelSource(b, JOB_LABELS[i]) {
      forall i | 0 <= i < |JOB_LABELS| ensures la[i] == lb[i] {
        assert JobLabelSource(a, JOB_LABELS[i]) == JobLabelSource(b, JOB_LABELS[i]);
      }
    }
  }

  /** The state is part of a job's identity: the same job seen in another
      state still projects, onto a different label tuple, so it addresses a
      different series instead of updating the old one. */
  lemma StateChangeIsNewSeries(a: Job, b: Job)
    requires ProjectJob(a).Ok?
    requires b.state.Some? && b.state != a.state
    requires b == a.(state := b.state)
    ensures ProjectJob(b).Ok?
    ensures ProjectJob(a).value.labels != ProjectJob(b).value.labels
  {
    assert ProjectJob(a).value.labels[3] == a.state.value;
  }

  /** Two projected vaults address the same series exactly when they agree on
      creation date and name. */
  lemma VaultIdentity(a: Vault, b: Vault)
    requires ProjectVault(a).Ok? && ProjectVault(b).Ok?
    ensures ProjectVault(a).value.labels == ProjectVault(b).value.labels <==>
      a.creationDate == b.creationDate && a.backupVaultName == b.backupVaultName
  {
    var la, lb := ProjectVault(a).value.labels, ProjectVault(b).value.labels;
    assert la[0] == a.creationDate.value && la[1] == a.backupVaultName.value;
    assert lb[0] == b.creationDate.value && lb[1] == b.backupVaultName.value;
  }
}

=== FILE: records.dfy ===
/** The records the backup service's list calls return, as the exporter reads
    them. Every key the exporter looks up may be missing from the response
    dictionary, so every field it reads is an `Option`; fields it never reads
    (ARNs, status message, ...) are not represented. Timestamps are opaque
    strings: they are only ever used as label values. */
module Records {
  import opened Wrappers

  /** An opaque continuation cursor (`NextToken`). */
  type Token = string

  /** The nested `CreatedBy` dictionary of a backup job. */
  datatype CreatedBy = CreatedBy(backupRuleId: Option<string>, backupPlanId: Option<string>)

  /** One element of `BackupJobs`. `percentDone` is the already-parsed value of
      the `PercentDone` string; `backupSizeInBytes` is absent while a job runs. */
  datatype Job = Job(
    creationDate: Option<string>,
    completionDate: Option<string>,
    backupJobId: Option<string>,
    state: Option<string>,
    createdBy: Option<CreatedBy>,
    backupVaultName: Option<string>,
    percentDone: Option<real>,
    backupSizeInBytes: Option<int>)

  /** One element of `BackupVaultList`. */
  datatype Vault = Vault(
    creationDate: Option<string>,
    backupVaultName: Option<string>,
    numberOfRecoveryPoints: Option<int>)

  /** One response of a list call. A response dictionary may carry either
      record list (or neither); `nextToken` is present exactly when more pages
      follow. */
  datatype Page = Page(
    backupJobs: Option<seq<Job>>,
    backupVaultList: Option<seq<Vault>>,
    nextToken: Option<Token>)

  /** What can abort a pass: a `KeyError` naming the missing key, an error
      raised by the upstream list call, or an upstream that stops answering
      while the exporter still holds a cursor. */
  datatype Error = MissingKey(key: string) | FetchFailed(reason: string) | NoReply

  /** A subscript `d[key]` on a response dictionary: the value, or a
      `KeyError` for `key`. */
  function Field<T>(o: Option<T>, key: string): (r: Result<T, Error>)
    ensures r.Ok? <==> o.Some?
    ensures r.Ok? ==> r.value == o.value
    ensures r.Err? ==> r.error == MissingKey(key)
  {
    match o
    case Some(v) => Ok(v)
    case None => Err(MissingKey(key))
  }
}

=== FILE: sink.dfy ===
/** The gauge store the exporter writes into: one value per (metric name,
    ordered label tuple). `Set` is `GAUGE.labels(*labels).set(value)`: an
    upsert where the last writer wins. */
module MetricSink {
  import opened Wrappers

  type Labels = seq<string>
  type SeriesKey = (string, Labels)
  type Sink = map<SeriesKey, real>

  const JOB_SIZE_BYTES: string := "aws_backup_job_size_bytes"
  const JOB_PERCENT_DONE: string := "aws_backup_job_percent_done"
  const RECOVERY_POINTS: string := "aws_backup_recovery_points"

  /** One pending gauge write. */
  datatype Write = Write(key: SeriesKey, value: real)

  /** `a` and `b` hold the same series `k` (both without it, or both with the same value). */
  predicate EqualOnKey(a: Sink, b: Sink, k: SeriesKey) {
    (k !in a && k !in b) || (k in a && k in b && a[k] == b[k])
  }

  /** `b` differs from `a` only in series whose metric name is in `metrics`. */
  ghost predicate Confined(a: Sink, b: Sink, metrics: set<string>) {
    forall k: SeriesKey :: k.0 !in metrics ==> EqualOnKey(a, b, k)
  }

  /** Upsert one series; every other series is left as it was. */
  function Set(sink: Sink, metric: string, labels: Labels, value: real): (r: Sink)
    ensures (metric, labels) in r && r[(metric, labels)] == value
    ensures forall k :: k != (metric, labels) ==> EqualOnKey(sink, r, k)
    ensures r.Keys == sink.Keys + {(metric, labels)}
  {
    sink[(metric, labels) := value]
  }

  /** Reference semantics of a sequence of writes: the value of the last write
      to `k`, looking from the end, if any write targets `k`. */
  function LastWrite(ws: seq<Write>, k: SeriesKey): Option<real>
    decreases |ws|
  {
    if |ws| == 0 then None
    else if ws[|ws| - 1].key == k then Some(ws[|ws| - 1].value)
    else LastWrite(ws[..|ws| - 1], k)
  }

  /** The last write to `k` given the last write `later` among the writes
      following `w`. */
  function Overriding(later: Option<real>, w: Write, k: SeriesKey): Option<real> {
    if later.Some? then later
    else if w.key == k then Some(w.value)
    else None
  }

  /** `LastWrite` seen from the front: a write in the tail overrides the head. */
  lemma {:induction false} LastWriteCons(ws: seq<Write>)
    requires |ws| > 0
    ensures forall k :: LastWrite(ws, k) == Overriding(LastWrite(ws[1..], k), ws[0], k)
    decreases |ws|
  {
    forall k
      ensures LastWrite(ws, k) == Overriding(LastWrite(ws[1..], k), ws[0], k)
    {
      if |ws| > 1 {
        var init := ws[..|ws| - 1];
        assert init[1..] == ws[1..][..|ws[1..]| - 1];
        LastWriteCons(init);
      }
    }
  }

  /** Writes in `b` override writes in `a` to the same series. */
  lemma {:induction false} LastWriteAppend(a: seq<Write>, b: seq<Write>, k: SeriesKey)
    ensures LastWrite(a + b, k) == if LastWrite(b, k).Some? then LastWrite(b, k) else LastWrite(a, k)
    decreases |b|
  {
    if |b| == 0 {
      assert a + b == a;
    } else {
      assert (a + b)[..|a + b| - 1] == a + b[..|b| - 1];
      LastWriteAppend(a, b[..|b| - 1], k);
    }
  }

  /** No write in `ws` targets `k` exactly when `LastWrite` finds none. */
  lemma {:induction false} LastWriteNone(ws: seq<Write>, k: SeriesKey)
    ensures LastWrite(ws, k).None? <==> forall i :: 0 <= i < |ws| ==> ws[i].key != k
    decreases |ws|
  {
    if |ws| > 0 {
      LastWriteNone(ws[..|ws| - 1], k);
    }
  }

  /** Perform `ws` left to right. Each series ends up holding the value of the
      last write to it, and series no write targets keep their old value. */
  function Apply(sink: Sink, ws: seq<Write>): (r: Sink)
    ensures forall k :: LastWrite(ws, k).Some? ==> k in r && r[k] == LastWrite(ws, k).value
    ensures forall k :: LastWrite(ws, k).None? ==> EqualOnKey(sink, r, k)
    decreases |ws|
  {
    if |ws| == 0 then sink
    else
      LastWriteCons(ws);
      Apply(Set(sink, ws[0].key.0, ws[0].key.1, ws[0].value), ws[1..])
  }

  /** Performing `a + b` is performing `a`, then `b`. */
  lemma ApplyAppend(sink: Sink, a: seq<Write>, b: seq<Write>)
    ensures Apply(sink, a + b) == Apply(Apply(sink, a), b)
  {
    var l := Apply(sink, a + b);
    var m := Apply(sink, a);
    var r := Apply(m, b);
    forall k ensures EqualOnKey(l, r, k) {
      LastWriteAppend(a, b, k);
      if LastWrite(b, k).None? && LastWrite(a, k).None? {
        assert EqualOnKey(sink, l, k) && EqualOnKey(sink, m, k) && EqualOnKey(m, r, k);
      }
    }
    assert forall k :: k in l <==> k in r by {
      forall k ensures k in l <==> k in r {
        assert EqualOnKey(l, r, k);
      }
    }
    assert l.Keys == r.Keys;
    assert forall k :: k in l ==> l[k] == r[k] by {
      forall k | k in l ensures l[k] == r[k] {
        assert EqualOnKey(l, r, k);
      }
    }
  }
}

=== FILE: steps.dfy ===
/** A callback that updates shared state and may raise. The exporter's
    callbacks mutate module-level gauges, so when one raises, every update it
    and its predecessors made is already visible: a `Step` therefore carries the
    state reached together with the error that stopped it, if any. */
module Steps {
  import opened Wrappers
  import opened Records

  datatype Step<S> = Step(state: S, raised: Option<Error>)

  /** Run `f` over `xs` from left to right, threading the state, and stop at
      the first element whose step raises (a Python `for` loop whose body may
      throw). */
  function Fold<S, X>(f: (S, X) -> Step<S>, s: S, xs: seq<X>): Step<S>
    decreases |xs|
  {
    if |xs| == 0 then Step(s, None)
    else
      var st := f(s, xs[0]);
      if st.raised.Some? then st else Fold(f, st.state, xs[1..])
  }

  /** Folding over `a + b` is folding over `a` and, unless that raised,
      continuing over `b` from the state it reached. */
  lemma {:induction false} FoldAppend<S, X>(f: (S, X) -> Step<S>, s: S, a: seq<X>, b: seq<X>)
    ensures Fold(f, s, a + b) ==
      (if Fold(f, s, a).raised.Some? then Fold(f, s, a) else Fold(f, Fold(f, s, a).state, b))
    decreases |a|
  {
    if |a| == 0 {
      assert a + b == b;
    } else {
      assert (a + b)[0] == a[0];
      assert (a + b)[1..] == a[1..] + b;
      var st := f(s, a[0]);
      if st.raised.None? {
        FoldAppend(f, st.state, a[1..], b);
      }
    }
  }

  /** When the first step raises, every non-empty prefix stops right there. */
  lemma FoldRaisesFirst<S, X>(f: (S, X) -> Step<S>, s: S, xs: seq<X>)
    ensures forall k :: 1 <= k <= |xs| && f(s, xs[0]).raised.Some? ==> Fold(f, s, xs[..k]) == f(s, xs[0])
  {
    forall k | 1 <= k <= |xs| && f(s, xs[0]).raised.Some? ensures Fold(f, s, xs[..k]) == f(s, xs[0]) {
      assert xs[..k][0] == xs[0];
    }
  }

  /** The elements of every group of `groups`, in order. */
  function Concat<P, X>(elements: P -> seq<X>, groups: seq<P>): seq<X>
    decreases |groups|
  {
    if |groups| == 0 then [] else elements(groups[0]) + Concat(elements, groups[1..])
  }

  /** A fold whose step is itself a fold over each group's elements is one fold
      over all the elements: nested loops that stop at the first raise stop at
      the same element as one flat loop. */
  lemma {:induction false} FoldConcat<S, P, X>(g: (S, P) -> Step<S>, f: (S, X) -> Step<S>, elements: P -> seq<X>, s: S, groups: seq<P>)
    requires forall t: S, p: P :: g(t, p) == Fold(f, t, elements(p))
    ensures Fold(g, s, groups) == Fold(f, s, Concat(elements, groups))
    decreases |groups|
  {
    if |groups| > 0 {
      var p := groups[0];
      FoldAppend(f, s, elements(p), Concat(elements, groups[1..]));
      if g(s, p).raised.None? {
        FoldConcat(g, f, elements, g(s, p).state, groups[1..]);
      }
    }
  }
}

=== FILE: wrappers.dfy ===
/** Failure-compatible wrappers: an optional value (a dictionary key that may
    be absent) and a result that is either a value or an error (an exception
    raised by the code being modelled). */
module Wrappers {

  datatype Option<+T> = None | Some(value: T) {

    /** The wrapped value, or `default` when there is none. */
    function GetOr(default: T): T {
      match this
      case Some(v) => v
      case None => default
    }
  }

  datatype Result<+T, +E> = Ok(value: T) | Err(error: E) {

    predicate IsFailure() {
      Err?
    }

    function PropagateFailure<U>(): Result<U, E>
      requires Err?
    {
      Err(error)
    }

    function Extract(): T
      requires Ok?
    {
      value
    }
  }
}
